=== FILE: README.md ===
# Messaging core: a Dafny model

This project models the messaging core of a small TypeScript service. Producers send a
message draft. The service stores it as PENDING and publishes it to the `"messages"` queue.
A consumer subscribed to that queue marks the stored record DELIVERED. Two queue
backends implement the same port:

- an in-process queue. Each queue has an append-only log and an ordered callback list.
  `publish` appends and fans out. `subscribe` registers and replays the whole backlog.
  `close` forgets everything.
- a RabbitMQ adapter. It runs a connect/retry state machine with exponential backoff and a
  single pending reconnect timer. It declares every queue durable with a 24-hour TTL,
  publishes persistently, and acknowledges or rejects-with-requeue each delivered frame.

Everything is functional. States are immutable datatypes, and operations are pure
functions from a state and their inputs to a new state. Callbacks are a handler value plus
a `run` function. That function says what the callback does to a "world" (the message
store, in the application) and whether it resolved. Everything the broker decides is an
input:

- whether a connect or channel creation succeeds;
- whether a declaration or send is rejected;
- which frames arrive;
- whether a frame's JSON parses.

Modules:

- `Results`, `Messages`, `QueuePort`: Option/Result, the message entity and its status,
  and the queue port's callback outcome.
- `InMemoryQueue`: `InMemoryMessageQueue.ts`, plus histories of operations and the
  backlog-replay theorem.
- `RabbitMQQueue`: `RabbitMQMessageQueue.ts`. It covers the supervisor, the backoff, the
  adapter calls and the per-frame settle decision.
- `MessageRepository`: `InMemoryMessageRepository.ts`. The model keeps the Map's
  insertion order, because `findAll` returns values in that order.
- `ReceiveMessage`, `SendMessage`, `MessageConsumer`: the two use cases and the consumer.
- `Wiring`: the application as `src/index.ts` assembles it, with the end-to-end property
  (send, then queue, then consumer, then DELIVERED). It also covers the consumer running
  on the broker adapter.

Behaviours of the code that the model keeps as they are:

- The error path itself increments the retry counter, at the moment it schedules the
  reconnect. Firing the reconnect does not count again.
- A rejected `assertQueue` or `sendToQueue` is rethrown to the caller. It does not run
  the connection-error path.
- When retries are exhausted the adapter calls `process.exit(1)`. The model has an
  absorbing `Exited(1)` state: nothing happens afterwards, and no call resolves.
- The code does not guarantee that a frame's JSON reads back as the message that was
  written. The timestamp becomes a string, and the parse is an unchecked cast. The parse
  is therefore an input that may fail or produce anything.

## Model

| member | source | states |
|---|---|---|
| InMemoryQueue.Dispatch | src/infrastructure/services/InMemoryMessageQueue.ts:24-31 | one delivery per call, recording exactly that call, in call order; the first delivery records the first callback's outcome on the starting world |
| InMemoryQueue.DispatchConcat | src/infrastructure/services/InMemoryMessageQueue.ts:24-31 | dispatching two lists of calls in turn equals dispatching their concatenation: the second list runs on the world the first left |
| InMemoryQueue.DispatchSnoc | src/infrastructure/services/InMemoryMessageQueue.ts:24-31 | one more call runs on the world the earlier calls left, adds exactly its own delivery with its own outcome, and its world is the final one |
| InMemoryQueue.DispatchRunsInOrder | src/infrastructure/services/InMemoryMessageQueue.ts:24-31 | call i runs once, on the world the calls before it left, and its delivery records that run's outcome whatever earlier calls did, so a failure does not stop later calls |
| InMemoryQueue.Publish | src/infrastructure/services/InMemoryMessageQueue.ts:11-32 | the message is appended to the end of its queue's log (also with no subscribers); other logs and all callback lists are unchanged; each registered callback is called once with it, in registration order, each on the world the previous one left (the fan-out dispatch), and its outcome is recorded without failing the publish |
| InMemoryQueue.Subscribe | src/infrastructure/services/InMemoryMessageQueue.ts:34-54 | the callback is appended to its queue's list, other lists and all logs unchanged; it is run once per logged message, in publish order, each time on the world the previous run left (the replay dispatch), with failures recorded and isolated |
| InMemoryQueue.Close | src/infrastructure/services/InMemoryMessageQueue.ts:56-60 | afterwards every queue has an empty log and no callbacks |
| InMemoryQueue.SubscribeAfterClose | src/infrastructure/services/InMemoryMessageQueue.ts:56-60 | a subscribe after close replays nothing and leaves the world as it was |
| InMemoryQueue.StateAfter | src/infrastructure/services/InMemoryMessageQueue.ts:15-40 | without a close, each queue's log is exactly the messages published to it and its callback list exactly the callbacks subscribed to it, in order |
| InMemoryQueue.BacklogReplay | src/infrastructure/services/InMemoryMessageQueue.ts:11-54 | a callback subscribed once to a queue receives exactly the messages published to that queue, in publish order, before or after it subscribed, with no loss and no duplicate; an unsubscribed one receives nothing |
| InMemoryQueue.BacklogScenario | src/infrastructure/services/InMemoryMessageQueue.ts:11-54 | publish A, B to "orders", subscribe H, publish C: H receives exactly A, B, C |
| MessageRepository.Save | src/infrastructure/repositories/InMemoryMessageRepository.ts:8-12 | afterwards findById(m.id) is m, replacing any earlier record; every other id reads as before; a new id goes to the end of the listing, an existing one keeps its place; the store invariant is kept |
| MessageRepository.FindById | src/infrastructure/repositories/InMemoryMessageRepository.ts:14-23 | absent exactly when no record is stored under the id; otherwise the stored record, whose own id is the key |
| MessageRepository.UpdateStatus | src/infrastructure/repositories/InMemoryMessageRepository.ts:25-34 | on a stored id only the status changes; an unknown id leaves the store identical; other ids, the key set and the listing order are unchanged |
| MessageRepository.FindAll | src/infrastructure/repositories/InMemoryMessageRepository.ts:36-41 | one entry per stored id and nothing else, no id twice, in the store's insertion order |
| MessageRepository.FindAllAppend | src/infrastructure/repositories/InMemoryMessageRepository.ts:36-41 | a store that gained one new record, others kept, lists the old listing followed by the new record |
| MessageRepository.RebuildHistory | src/infrastructure/repositories/InMemoryMessageRepository.ts:6-34 | any history of saves and status updates leaves a valid store whose order is the order of first saves, and findById is absent exactly for ids never saved |
| MessageRepository.FindAllOrder | src/infrastructure/repositories/InMemoryMessageRepository.ts:36-41 | after any history, findAll lists one record per saved id ordered by first save; overwrites and status updates keep positions |
| ReceiveMessage.Receive | src/application/useCases/ReceiveMessageUseCase.ts:7-15 | fails exactly when the id is unknown, with "Message with id <id> not found" and no update; otherwise that record becomes DELIVERED with its other fields kept; no record is added or reordered |
| ReceiveMessage.ReceiveIdempotent | src/application/useCases/ReceiveMessageUseCase.ts:14 | receiving a known message twice gives the same store as receiving it once |
| ReceiveMessage.ReceiveReadsOnlyId | src/application/useCases/ReceiveMessageUseCase.ts:8-14 | two incoming copies with the same id have the same effect, whatever their other fields |
| MessageConsumer.Handle | src/infrastructure/services/MessageConsumer.ts:12-18 | the forwarder resolves exactly when the receive use case does on the unchanged message, and a failure leaves the store as it was |
| MessageConsumer.DispatchReceive | src/infrastructure/services/MessageConsumer.ts:12-18 | a run of forwarder calls creates and reorders nothing; a stored id mentioned by some call ends DELIVERED, every other record is untouched, and call i fails exactly when its id is unknown |
| MessageConsumer.Start | src/infrastructure/services/MessageConsumer.ts:11-20 | the forwarder is subscribed once, to "messages" only; backlog messages with stored ids end DELIVERED, others fail and are swallowed; nothing else in the store changes |
| SendMessage.Execute | src/application/useCases/SendMessageUseCase.ts:11-21 | the first port call saves a PENDING message with the draft's fields and the fresh id and time; a failed save publishes nothing and fails; after a saved one the same value is published to "messages" and its outcome is the result |
| Wiring.Boot | src/index.ts:17-26 | the started application has the forwarder on "messages" and an empty valid store |
| Wiring.Send | src/index.ts:17-21 | on the in-memory ports sending never fails |
| Wiring.EndToEnd | src/application/useCases/SendMessageUseCase.ts:19-20 | with the consumer started, after a send the new id reads as the built message with status DELIVERED and every other id reads as before |
| Wiring.SendFreshAppends | src/application/useCases/SendMessageUseCase.ts:11-20 | with a fresh id, a send keeps the store valid and findAll gains exactly the delivered message, at the end |
| Wiring.ConsumerOnBroker | src/infrastructure/services/RabbitMQMessageQueue.ts:100-111 | on the broker, the consumer acknowledges a frame exactly when it parses to a message with a stored id, which then reads DELIVERED; otherwise it rejects with requeue and leaves the store unchanged |
| RabbitMQQueue.Backoff | src/infrastructure/services/RabbitMQMessageQueue.ts:50 | the delay is min(1000·2^n, 30000) ms: it never exceeds either bound and equals one of them, so it is 1000·2^n below the ceiling; at least 2000 ms for attempt 1 on, and exactly 30000 ms from attempt 5 on |
| RabbitMQQueue.BackoffDoubles | src/infrastructure/services/RabbitMQMessageQueue.ts:50 | each delay is twice the previous one, capped at 30000 ms |
| RabbitMQQueue.BackoffSchedule | src/infrastructure/services/RabbitMQMessageQueue.ts:48-50 | attempts 1 to 5 wait 2000, 4000, 8000, 16000 and 30000 ms |
| RabbitMQQueue.Init | src/infrastructure/services/RabbitMQMessageQueue.ts:6-10 | a new adapter satisfies the invariant |
| RabbitMQQueue.Cancel | src/infrastructure/services/RabbitMQMessageQueue.ts:54-56 | clearing a timer removes exactly that timer from the pending ones |
| RabbitMQQueue.HandleConnectionError | src/infrastructure/services/RabbitMQMessageQueue.ts:44-65 | handles are dropped; below 5 retries the counter goes up by one and the only pending timer is a fresh one with the backoff of the new count, any previous one cancelled; at 5 the process exits with status 1; the invariant is kept |
| RabbitMQQueue.EnsureConnection | src/infrastructure/services/RabbitMQMessageQueue.ts:14-42 | with handles present nothing changes and the call resolves; it resolves exactly when handles were present or the connect succeeded; success leaves handles present, timers untouched and, after a real connect, the counter at 0; a failed connect runs the error path and the call fails |
| RabbitMQQueue.Step | src/infrastructure/services/RabbitMQMessageQueue.ts:25-60 | every event (adapter call, listener error/close, reconnect firing) keeps the invariant, and none leaves the exited state |
| RabbitMQQueue.RunPreservesInv | src/infrastructure/services/RabbitMQMessageQueue.ts:44-65 | any sequence of events keeps the invariant, and the exited state absorbs all of them |
| RabbitMQQueue.Reachable | src/infrastructure/services/RabbitMQMessageQueue.ts:9-10 | in every reachable state the counter lies in 0..5 and at most one reconnect is pending |
| RabbitMQQueue.ConsecutiveFailures | src/infrastructure/services/RabbitMQMessageQueue.ts:44-65 | k consecutive failures raise the counter by k and leave one reconnect with the backoff of the new count while within 5, and exit with status 1 beyond. A failure is a lost connection, a failed connect by a call, or a failed connect by the reconnect firing |
| RabbitMQQueue.RetryExhaustion | src/infrastructure/services/RabbitMQMessageQueue.ts:37-64 | from a new adapter, failure k of 1..5 leaves counter k and the one timer delayed by Backoff(k); a sixth failure exits with status 1, after which no call resolves. This holds for failed calls and also for one failed call followed by the adapter's own failing reconnects |
| RabbitMQQueue.DropAndRecover | src/infrastructure/services/RabbitMQMessageQueue.ts:30-36 | losing a live connection leaves counter 1 and one reconnect after 2000 ms; a successful firing restores the handles with counter 0 and nothing pending |
| RabbitMQQueue.Publish | src/infrastructure/services/RabbitMQMessageQueue.ts:67-86 | no channel operation without a connection; the queue is declared durable with TTL 86400000 first; success means declare then a persistent send of the serialized message; it resolves exactly when connected with no rejection; the message is sent exactly when connected and the declaration was not rejected, so a rejected declaration stops the send; a rejection leaves the connection state as ensureConnection left it |
| RabbitMQQueue.Subscribe | src/infrastructure/services/RabbitMQMessageQueue.ts:88-117 | no channel operation without a connection; the same durable declaration first; it resolves exactly when connected and declared, and then registers the consumer; a rejected declaration is the only channel operation made |
| RabbitMQQueue.DeclarationsAgree | src/infrastructure/services/RabbitMQMessageQueue.ts:72-98 | publish and subscribe declare a queue with identical options (durable, TTL 86400000), and only ever with handles present |
| RabbitMQQueue.ExitedIsFinal | src/infrastructure/services/RabbitMQMessageQueue.ts:61-64 | after exit a publish or subscribe makes no channel call and never resolves, and no event changes the state |
| RabbitMQQueue.OnMessage | src/infrastructure/services/RabbitMQMessageQueue.ts:100-111 | a null frame is ignored; a frame is acknowledged exactly when it parses and the callback succeeds; otherwise it is rejected for that frame alone with requeue; an unparsable frame never reaches the callback |
| RabbitMQQueue.Settle | src/infrastructure/services/RabbitMQMessageQueue.ts:105-109 | a decision reaches the broker exactly when there is one and the adapter holds a channel |
| RabbitMQQueue.SettleDelivered | src/infrastructure/services/RabbitMQMessageQueue.ts:100-111 | while the channel is held, a delivered frame is settled with exactly one of ack (exactly when parse and callback succeed) and nack(false, true); after the connection is lost nothing is sent, so the broker keeps the frame |
| RabbitMQQueue.ConsumeAll | src/infrastructure/services/RabbitMQMessageQueue.ts:100-112 | one decision per frame: a frame is ignored exactly when it is null; every non-null frame that is not acked, and every unparsable frame, is nacked with requeue |
| RabbitMQQueue.ConsumeAllRunsInOrder | src/infrastructure/services/RabbitMQMessageQueue.ts:100-112 | frame i is decided by handling it on the world the frames before it left: a non-null frame is acked exactly when it parses and the callback on that world resolves, whatever earlier frames got |
| RabbitMQQueue.NoRedeliveryCap | src/infrastructure/services/RabbitMQMessageQueue.ts:106-110 | a frame that always fails is rejected with requeue on every one of any number of redeliveries |

## Left out

- Logging (`Logger`, `console`) is not modelled: it has no effect on state.
- Environment configuration, the HTTP controller and routes, the bootstrap's sample sends and
  signal handlers, and the connectivity probe are outside the core.
- Concurrency is not modelled. Every `await` runs to completion in order, so interleavings are
  absent. Examples: a publish landing between the in-memory subscribe's registration and its
  replay, concurrent `ensureConnection` callers, and callbacks that themselves publish.
- amqplib internals are inputs: the connection and channel objects, heartbeat and timeout
  options, delivery tags, and whether a connect or channel operation fails.
- Listener events are not tied to a particular connection. `ConnectionLost` may arrive in
  any state, since both the `'error'` and `'close'` listeners of any connection ever opened
  call the error path. One drop can therefore raise the counter twice; the model does not
  claim one increment per drop.
- The durable adapter's `close()` is not modelled. It neither clears its handles nor its
  timer field, and closing the connection fires the `'close'` listener, which schedules a
  reconnect and sets both handles to null. A second `close()` therefore finds no handles
  to close; it only clears the reconnect timer that the listener scheduled.
- The JSON serialization round trip is not modelled. The parse of a frame is a parameter,
  and `Payload.Serialized` stands for the text the adapter writes.
- An `ack` or `nack` after a reconnect would be sent on the new channel with the old
  delivery tag. The model only distinguishes "channel held" from "no channel".
- The `Channel not initialized` throw after `ensureConnection` is not modelled. A resolved
  `ensureConnection` always leaves the channel present in this sequential model.
- `crypto.randomUUID()` and `new Date()` are the `id` and `now` parameters of the send use
  case. A fresh id is a precondition only where freshness matters (`Wiring.SendFreshAppends`).
- Timestamps are integers of milliseconds, not `Date` objects.

=== FILE: in_memory_queue.dfy ===
/**
 * The in-process queue (src/infrastructure/services/InMemoryMessageQueue.ts).
 *
 * State is two maps: queue name to its append-only message log, and queue
 * name to its ordered callback list. Callbacks are values of a handler type
 * `H`; what a callback does is given by `run`, which maps a handler, a
 * message and a world `W` to an Outcome. Every invocation is recorded as a
 * Delivery, so the order and multiplicity of callback calls can be stated.
 * The model is sequential: callbacks do not publish or subscribe themselves.
 */
module InMemoryQueue {
  import opened Messages
  import opened QueuePort

  datatype Queue<H> = Queue(subscribers: map<QueueName, seq<H>>, logs: map<QueueName, seq<Message>>)

  /** A fresh queue, and the state `close` leaves behind. */
  function Empty<H>(): (b: Queue<H>) {
    Queue(map[], map[])
  }

  /** The messages logged for `q`; a queue never published to has none. */
  function Log<H>(b: Queue<H>, q: QueueName): (log: seq<Message>) {
    if q in b.logs then b.logs[q] else []
  }

  /** The callbacks registered for `q`, in registration order. */
  function Subscribers<H>(b: Queue<H>, q: QueueName): (hs: seq<H>) {
    if q in b.subscribers then b.subscribers[q] else []
  }

  /** One callback invocation: which callback, for which queue, with which message. */
  datatype Call<H> = Call(queue: QueueName, handler: H, message: Message)

  /** A call that was made, and whether the callback resolved. */
  datatype Delivery<H> = Delivery(call: Call<H>, ok: bool)

  datatype Dispatched<H, W> = Dispatched(deliveries: seq<Delivery<H>>, world: W)

  /**
   * Runs the calls one after the other, each on the world the previous one
   * left. A failing call is caught: it is recorded and the next call still
   * runs, so there is exactly one delivery per call, in call order.
   */
  function Dispatch<H, W>(run: (H, Message, W) -> Outcome<W>, calls: seq<Call<H>>, w: W): (r: Dispatched<H, W>)
    ensures |r.deliveries| == |calls|
    ensures forall i :: 0 <= i < |calls| ==> r.deliveries[i].call == calls[i]
    ensures calls != [] ==> r.deliveries[0].ok == run(calls[0].handler, calls[0].message, w).ok
    decreases |calls|
  {
    if calls == [] then Dispatched([], w)
    else
      var o := run(calls[0].handler, calls[0].message, w);
      var rest := Dispatch(run, calls[1..], o.world);
      Dispatched([Delivery(calls[0], o.ok)] + rest.deliveries, rest.world)
  }

  /**
   * Dispatching `a` then `b` is dispatching `a + b`: `b`'s calls run on the
   * world `a`'s calls left, and their deliveries follow `a`'s.
   */
  lemma {:induction false} DispatchConcat<H, W>(run: (H, Message, W) -> Outcome<W>, a: seq<Call<H>>, b: seq<Call<H>>, w: W)
    ensures var da := Dispatch(run, a, w);
            var db := Dispatch(run, b, da.world);
            Dispatch(run, a + b, w) == Dispatched(da.deliveries + db.deliveries, db.world)
    decreases |a|
  {
    if a == [] {
      assert a + b == b;
    } else {
      assert (a + b)[0] == a[0];
      assert (a + b)[1..] == a[1..] + b;
      var o := run(a[0].handler, a[0].message, w);
      var rest := Dispatch(run, a[1..], o.world);
      var db := Dispatch(run, b, rest.world);
      var tail := Dispatch(run, (a + b)[1..], o.world);
      DispatchConcat(run, a[1..], b, o.world);
      assert tail == Dispatched(rest.deliveries + db.deliveries, db.world);
      assert Dispatch(run, a, w) == Dispatched([Delivery(a[0], o.ok)] + rest.deliveries, rest.world);
      assert Dispatch(run, a + b, w) == Dispatched([Delivery(a[0], o.ok)] + tail.deliveries, tail.world);
      ConcatAssoc([Delivery(a[0], o.ok)], rest.deliveries, db.deliveries);
    }
  }

  lemma ConcatAssoc<T>(x: seq<T>, y: seq<T>, z: seq<T>)
    ensures x + (y + z) == (x + y) + z
  {
  }

  /**
   * The left fold: one more call runs on the world the earlier calls left,
   * adds exactly its own delivery with its own outcome, and its world is the
   * final one.
   */
  lemma DispatchSnoc<H, W>(run: (H, Message, W) -> Outcome<W>, calls: seq<Call<H>>, c: Call<H>, w: W)
    ensures var d := Dispatch(run, calls, w);
            var o := run(c.handler, c.message, d.world);
            Dispatch(run, calls + [c], w) == Dispatched(d.deliveries + [Delivery(c, o.ok)], o.world)
  {
    DispatchConcat(run, calls, [c], w);
  }

  /**
   * Call `i` runs once, on the world the calls before it left, and its
   * delivery records that run's outcome, whatever the earlier outcomes were.
   */
  lemma DispatchRunsInOrder<H, W>(run: (H, Message, W) -> Outcome<W>, calls: seq<Call<H>>, w: W, i: nat)
    requires i < |calls|
    ensures Dispatch(run, calls, w).deliveries[i]
         == Delivery(calls[i], run(calls[i].handler, calls[i].message, Dispatch(run, calls[..i], w).world).ok)
  {
    assert calls == calls[..i] + calls[i..];
    DispatchConcat(run, calls[..i], calls[i..], w);
  }

  /** The messages the calls carry, in call order. */
  function MessagesOf<H>(calls: seq<Call<H>>): (ms: seq<Message>)
    ensures |ms| == |calls|
    ensures forall i :: 0 <= i < |calls| ==> ms[i] == calls[i].message
  {
    if calls == [] then [] else [calls[0].message] + MessagesOf(calls[1..])
  }

  /** The calls of a live fan-out: every callback of `hs`, in order, with `m`. */
  function FanOut<H>(q: QueueName, hs: seq<H>, m: Message): (calls: seq<Call<H>>)
    ensures |calls| == |hs|
    ensures forall i :: 0 <= i < |hs| ==> calls[i] == Call(q, hs[i], m)
  {
    seq(|hs|, i requires 0 <= i < |hs| => Call(q, hs[i], m))
  }

  /** The calls of a backlog replay: callback `h` with every message of `ms`, in order. */
  function Replay<H>(q: QueueName, h: H, ms: seq<Message>): (calls: seq<Call<H>>)
    ensures |calls| == |ms|
    ensures forall i :: 0 <= i < |ms| ==> calls[i] == Call(q, h, ms[i])
  {
    seq(|ms|, i requires 0 <= i < |ms| => Call(q, h, ms[i]))
  }

  /** The queue state after an operation, the callback calls it made, and the world after them. */
  datatype Effect<H, W> = Effect(queue: Queue<H>, deliveries: seq<Delivery<H>>, world: W)

  /**
   * `publish(q, m)`: append `m` to the log of `q` (created when missing),
   * then call every callback registered for `q` once, in registration
   * order. Publishing cannot fail, whatever the callbacks do.
   */
  function Publish<H, W>(b: Queue<H>, q: QueueName, m: Message, run: (H, Message, W) -> Outcome<W>, w: W): (r: Effect<H, W>)
    ensures Log(r.queue, q) == Log(b, q) + [m]
    ensures forall q' :: q' != q ==> Log(r.queue, q') == Log(b, q')
    ensures r.queue.subscribers == b.subscribers
    ensures |r.deliveries| == |Subscribers(b, q)|
    ensures forall i :: 0 <= i < |r.deliveries| ==> r.deliveries[i].call == Call(q, Subscribers(b, q)[i], m)
    ensures r.deliveries == Dispatch(run, FanOut(q, Subscribers(b, q), m), w).deliveries
    ensures r.world == Dispatch(run, FanOut(q, Subscribers(b, q), m), w).world
  {
    var d := Dispatch(run, FanOut(q, Subscribers(b, q), m), w);
    Effect(b.(logs := b.logs[q := Log(b, q) + [m]]), d.deliveries, d.world)
  }

  /**
   * `subscribe(q, h)`: append `h` to the callback list of `q` (created when
   * missing), then call `h` once per logged message of `q`, in publish
   * order. The log is not drained.
   */
  function Subscribe<H, W>(b: Queue<H>, q: QueueName, h: H, run: (H, Message, W) -> Outcome<W>, w: W): (r: Effect<H, W>)
    ensures Subscribers(r.queue, q) == Subscribers(b, q) + [h]
    ensures forall q' :: q' != q ==> Subscribers(r.queue, q') == Subscribers(b, q')
    ensures r.queue.logs == b.logs
    ensures |r.deliveries| == |Log(b, q)|
    ensures forall i :: 0 <= i < |r.deliveries| ==> r.deliveries[i].call == Call(q, h, Log(b, q)[i])
    ensures r.deliveries == Dispatch(run, Replay(q, h, Log(b, q)), w).deliveries
    ensures r.world == Dispatch(run, Replay(q, h, Log(b, q)), w).world
  {
    var d := Dispatch(run, Replay(q, h, Log(b, q)), w);
    Effect(b.(subscribers := b.subscribers[q := Subscribers(b, q) + [h]]), d.deliveries, d.world)
  }

  /** `close()`: forget every log and every callback. */
  function Close<H>(b: Queue<H>): (r: Queue<H>)
    ensures forall q :: Log(r, q) == [] && Subscribers(r, q) == []
  {
    Empty()
  }

  /** After `close`, a new subscriber is replayed nothing. */
  lemma SubscribeAfterClose<H, W>(b: Queue<H>, q: QueueName, h: H, run: (H, Message, W) -> Outcome<W>, w: W)
    ensures Subscribe(Close(b), q, h, run, w).deliveries == []
    ensures Subscribe(Close(b), q, h, run, w).world == w
  {
  }

  // ----- Histories of operations -----

  datatype Op<H> = PublishOp(queue: QueueName, message: Message) | SubscribeOp(queue: QueueName, handler: H) | CloseOp

  /** Performs one operation, accumulating the deliveries made so far. */
  function Apply<H, W>(e: Effect<H, W>, op: Op<H>, run: (H, Message, W) -> Outcome<W>): (r: Effect<H, W>) {
    match op
    case PublishOp(q, m) =>
      var r := Publish(e.queue, q, m, run, e.world);
      Effect(r.queue, e.deliveries + r.deliveries, r.world)
    case SubscribeOp(q, h) =>
      var r := Subscribe(e.queue, q, h, run, e.world);
      Effect(r.queue, e.deliveries + r.deliveries, r.world)
    case CloseOp =>
      Effect(Close(e.queue), e.deliveries, e.world)
  }

  /** Performs `ops` in order on a fresh queue. */
  function RunOps<H, W>(run: (H, Message, W) -> Outcome<W>, ops: seq<Op<H>>, w: W): (r: Effect<H, W>)
    decreases |ops|
  {
    if ops == [] then Effect(Empty(), [], w)
    else Apply(RunOps(run, ops[..|ops| - 1], w), ops[|ops| - 1], run)
  }

  /** The messages `ops` publish to `q`, in order. */
  function PublishedTo<H>(ops: seq<Op<H>>, q: QueueName): (log: seq<Message>)
    decreases |ops|
  {
    if ops == [] then []
    else
      var last := ops[|ops| - 1];
      PublishedTo(ops[..|ops| - 1], q) + (if last.PublishOp? && last.queue == q then [last.message] else [])
  }

  /** The callbacks `ops` subscribe to `q`, in order. */
  function SubscribedTo<H>(ops: seq<Op<H>>, q: QueueName): (hs: seq<H>)
    decreases |ops|
  {
    if ops == [] then []
    else
      var last := ops[|ops| - 1];
      SubscribedTo(ops[..|ops| - 1], q) + (if last.SubscribeOp? && last.queue == q then [last.handler] else [])
  }

  predicate NoClose<H>(ops: seq<Op<H>>) {
    forall i :: 0 <= i < |ops| ==> !ops[i].CloseOp?
  }

  /** The messages handed to callback `h` of queue `q`, in delivery order. */
  ghost function DeliveredTo<H>(ds: seq<Delivery<H>>, q: QueueName, h: H): (got: seq<Message>) {
    if ds == [] then []
    else (if ds[0].call.queue == q && ds[0].call.handler == h then [ds[0].call.message] else [])
         + DeliveredTo(ds[1..], q, h)
  }

  lemma {:induction false} DeliveredToConcat<H>(a: seq<Delivery<H>>, b: seq<Delivery<H>>, q: QueueName, h: H)
    ensures DeliveredTo(a + b, q, h) == DeliveredTo(a, q, h) + DeliveredTo(b, q, h)
  {
    if a == [] {
      assert a + b == b;
    } else {
      assert (a + b)[0] == a[0];
      assert (a + b)[1..] == a[1..] + b;
      DeliveredToConcat(a[1..], b, q, h);
    }
  }

  /** A live fan-out hands `m` to `h` once if `h` is registered once, never if it is not. */
  lemma {:induction false} DeliveredToFanOut<H>(ds: seq<Delivery<H>>, q': QueueName, hs: seq<H>, m: Message, q: QueueName, h: H)
    requires |ds| == |hs|
    requires forall i :: 0 <= i < |ds| ==> ds[i].call == Call(q', hs[i], m)
    requires multiset(hs)[h] <= 1
    ensures DeliveredTo(ds, q, h) == (if q' == q && h in hs then [m] else [])
  {
    if ds != [] {
      assert hs == [hs[0]] + hs[1..];
      assert multiset(hs) == multiset{hs[0]} + multiset(hs[1..]);
      DeliveredToFanOut(ds[1..], q', hs[1..], m, q, h);
      if hs[0] == h {
        assert h !in hs[1..];
      }
    }
  }

  /** A replay to `h'` hands `h` the whole backlog when `h == h'`, and nothing otherwise. */
  lemma {:induction false} DeliveredToReplay<H>(ds: seq<Delivery<H>>, q': QueueName, h': H, ms: seq<Message>, q: QueueName, h: H)
    requires |ds| == |ms|
    requires forall i :: 0 <= i < |ds| ==> ds[i].call == Call(q', h', ms[i])
    ensures DeliveredTo(ds, q, h) == (if q' == q && h' == h then ms else [])
  {
    if ds != [] {
      DeliveredToReplay(ds[1..], q', h', ms[1..], q, h);
      assert ms == [ms[0]] + ms[1..];
    }
  }

  /** One more operation extends the history functions by that operation alone. */
  lemma HistorySnoc<H>(ops: seq<Op<H>>, op: Op<H>, q: QueueName)
    ensures PublishedTo(ops + [op], q) == PublishedTo(ops, q) + (if op.PublishOp? && op.queue == q then [op.message] else [])
    ensures SubscribedTo(ops + [op], q) == SubscribedTo(ops, q) + (if op.SubscribeOp? && op.queue == q then [op.handler] else [])
  {
    assert (ops + [op])[..|ops|] == ops;
  }

  /** Without a close, the logs and callback lists are exactly what the history put there. */
  lemma {:induction false} StateAfter<H, W>(run: (H, Message, W) -> Outcome<W>, ops: seq<Op<H>>, w: W, q: QueueName)
    requires NoClose(ops)
    ensures Log(RunOps(run, ops, w).queue, q) == PublishedTo(ops, q)
    ensures Subscribers(RunOps(run, ops, w).queue, q) == SubscribedTo(ops, q)
    decreases |ops|
  {
    if ops != [] {
      var prefix := ops[..|ops| - 1];
      var last := ops[|ops| - 1];
      assert ops == prefix + [last];
      assert NoClose(prefix) by {
        forall i | 0 <= i < |prefix| ensures !prefix[i].CloseOp? {
          assert prefix[i] == ops[i];
        }
      }
      StateAfter(run, prefix, w, q);
      HistorySnoc(prefix, last, q);
      var before := RunOps(run, prefix, w);
      match last
      case PublishOp(q', m) =>
        var r := Publish(before.queue, q', m, run, before.world);
        assert RunOps(run, ops, w).queue == r.queue;
      case SubscribeOp(q', h) =>
        var r := Subscribe(before.queue, q', h, run, before.world);
        assert RunOps(run, ops, w).queue == r.queue;
    }
  }

  /** The prefix of a one-step-longer history is the history itself. */
  lemma PrefixOfSnoc<H>(ops: seq<Op<H>>, op: Op<H>)
    ensures (ops + [op])[..|ops|] == ops
    ensures (ops + [op])[|ops|] == op
    ensures NoClose(ops + [op]) <==> NoClose(ops) && !op.CloseOp?
  {
    assert forall i :: 0 <= i < |ops| ==> (ops + [op])[i] == ops[i];
  }

  /** The induction step of BacklogReplay for a publish. */
  lemma PublishStep<H, W>(run: (H, Message, W) -> Outcome<W>, prefix: seq<Op<H>>, w: W, q: QueueName, h: H, q': QueueName, m: Message)
    requires NoClose(prefix)
    requires multiset(SubscribedTo(prefix, q))[h] <= 1
    requires DeliveredTo(RunOps(run, prefix, w).deliveries, q, h)
          == (if h in SubscribedTo(prefix, q) then PublishedTo(prefix, q) else [])
    ensures DeliveredTo(RunOps(run, prefix + [PublishOp(q', m)], w).deliveries, q, h)
         == (if h in SubscribedTo(prefix + [PublishOp(q', m)], q) then PublishedTo(prefix + [PublishOp(q', m)], q) else [])
  {
    var op := PublishOp(q', m);
    var ops := prefix + [op];
    PrefixOfSnoc(prefix, op);
    var before := RunOps(run, prefix, w);
    var hs := Subscribers(before.queue, q');
    var r := Publish(before.queue, q', m, run, before.world);
    assert RunOps(run, ops, w) == Apply(before, op, run);
    assert RunOps(run, ops, w).deliveries == before.deliveries + r.deliveries;
    DeliveredToConcat(before.deliveries, r.deliveries, q, h);
    assert SubscribedTo(ops, q) == SubscribedTo(prefix, q);
    assert PublishedTo(ops, q) == PublishedTo(prefix, q) + (if q' == q then [m] else []);
    StateAfter(run, prefix, w, q');
    assert hs == SubscribedTo(prefix, q');
    if q' == q {
      DeliveredToFanOut(r.deliveries, q', hs, m, q, h);
      assert DeliveredTo(r.deliveries, q, h) == (if h in SubscribedTo(prefix, q) then [m] else []);
    } else {
      DeliveredToOtherQueue(r.deliveries, q, h);
    }
  }

  /** Deliveries made on another queue hand nothing to callbacks of `q`. */
  lemma {:induction false} DeliveredToOtherQueue<H>(ds: seq<Delivery<H>>, q: QueueName, h: H)
    requires forall i :: 0 <= i < |ds| ==> ds[i].call.queue != q
    ensures DeliveredTo(ds, q, h) == []
  {
    if ds != [] {
      DeliveredToOtherQueue(ds[1..], q, h);
    }
  }

  /** The induction step of BacklogReplay for a subscribe. */
  lemma SubscribeStep<H, W>(run: (H, Message, W) -> Outcome<W>, prefix: seq<Op<H>>, w: W, q: QueueName, h: H, q': QueueName, h': H)
    requires NoClose(prefix)
    requires multiset(SubscribedTo(prefix + [SubscribeOp(q', h')], q))[h] <= 1
    requires DeliveredTo(RunOps(run, prefix, w).deliveries, q, h)
          == (if h in SubscribedTo(prefix, q) then PublishedTo(prefix, q) else [])
    ensures DeliveredTo(RunOps(run, prefix + [SubscribeOp(q', h')], w).deliveries, q, h)
         == (if h in SubscribedTo(prefix + [SubscribeOp(q', h')], q) then PublishedTo(prefix + [SubscribeOp(q', h')], q) else [])
  {
    var ops := prefix + [SubscribeOp(q', h')];
    PrefixOfSnoc(prefix, SubscribeOp(q', h'));
    var before := RunOps(run, prefix, w);
    StateAfter(run, prefix, w, q');
    var r := Subscribe(before.queue, q', h', run, before.world);
    assert RunOps(run, ops, w).deliveries == before.deliveries + r.deliveries;
    DeliveredToConcat(before.deliveries, r.deliveries, q, h);
    DeliveredToReplay(r.deliveries, q', h', Log(before.queue, q'), q, h);
    assert PublishedTo(ops, q) == PublishedTo(prefix, q);
    if q' == q {
      assert SubscribedTo(ops, q) == SubscribedTo(prefix, q) + [h'];
      assert multiset(SubscribedTo(ops, q)) == multiset(SubscribedTo(prefix, q)) + multiset{h'};
    } else {
      assert SubscribedTo(ops, q) == SubscribedTo(prefix, q);
    }
  }

  /**
   * Backlog replay: a callback subscribed once to `q` receives exactly the
   * messages published to `q`, in publish order, whether they were
   * published before it subscribed (replay) or after (live fan-out), with
   * no loss and no duplicate. A callback never subscribed receives nothing.
   */
  lemma {:induction false} BacklogReplay<H, W>(run: (H, Message, W) -> Outcome<W>, ops: seq<Op<H>>, w: W, q: QueueName, h: H)
    requires NoClose(ops)
    requires multiset(SubscribedTo(ops, q))[h] <= 1
    ensures DeliveredTo(RunOps(run, ops, w).deliveries, q, h)
         == (if h in SubscribedTo(ops, q) then PublishedTo(ops, q) else [])
    decreases |ops|
  {
    if ops != [] {
      var prefix := ops[..|ops| - 1];
      var last := ops[|ops| - 1];
      assert ops == prefix + [last];
      PrefixOfSnoc(prefix, last);
      match last
      case PublishOp(q', m) =>
        assert SubscribedTo(ops, q) == SubscribedTo(prefix, q);
        BacklogReplay(run, prefix, w, q, h);
        PublishStep(run, prefix, w, q, h, q', m);
      case SubscribeOp(q', h') =>
        if q' == q {
          assert SubscribedTo(ops, q) == SubscribedTo(prefix, q) + [h'];
          assert multiset(SubscribedTo(ops, q)) == multiset(SubscribedTo(prefix, q)) + multiset{h'};
        } else {
          assert SubscribedTo(ops, q) == SubscribedTo(prefix, q);
        }
        BacklogReplay(run, prefix, w, q, h);
        SubscribeStep(run, prefix, w, q, h, q', h');
    }
  }

  /** Publish A and B, subscribe H, publish C: H receives exactly A, B, C in that order. */
  lemma BacklogScenario<H, W>(run: (H, Message, W) -> Outcome<W>, w: W, h: H, a: Message, b: Message, c: Message)
    ensures var ops := [PublishOp("orders", a), PublishOp("orders", b), SubscribeOp("orders", h), PublishOp("orders", c)];
            DeliveredTo(RunOps(run, ops, w).deliveries, "orders", h) == [a, b, c]
  {
    var ops0: seq<Op<H>> := [];
    var ops1 := ops0 + [PublishOp("orders", a)];
    var ops2 := ops1 + [PublishOp("orders", b)];
    var ops3 := ops2 + [SubscribeOp("orders", h)];
    var ops := ops3 + [PublishOp("orders", c)];
    HistorySnoc(ops0, PublishOp("orders", a), "orders");
    HistorySnoc(ops1, PublishOp("orders", b), "orders");
    HistorySnoc(ops2, SubscribeOp("orders", h), "orders");
    HistorySnoc(ops3, PublishOp("orders", c), "orders");
    assert SubscribedTo(ops, "orders") == [h];
    assert PublishedTo(ops, "orders") == [a, b, c];
    assert NoClose(ops);
    assert ops == [PublishOp("orders", a), PublishOp("orders", b), SubscribeOp("orders", h), PublishOp("orders", c)];
    BacklogReplay(run, ops, w, "orders", h);
  }
}

=== FILE: message.dfy ===
/** The message entity and its lifecycle status (src/domain/entities/Message.ts). */
module Messages {

  /** The four literals of the MessageStatus enumeration. */
  datatype Status = Pending | Sent | Delivered | Failed

  /**
   * A message record. The timestamp is a JavaScript Date, kept as its
   * millisecond count since the epoch.
   */
  datatype Message = Message(
    id: string,
    content: string,
    sender: string,
    recipient: string,
    timestamp: int,
    status: Status)

  /** What a producer supplies: a Message without id, timestamp and status. */
  datatype Draft = Draft(content: string, sender: string, recipient: string)

  /** The set of ids carried by a sequence of messages. */
  function Ids(ms: seq<Message>): (ids: set<string>)
    ensures forall i :: 0 <= i < |ms| ==> ms[i].id in ids
    ensures forall id :: id in ids ==> exists i :: 0 <= i < |ms| && ms[i].id == id
  {
    if ms == [] then {} else {ms[0].id} + Ids(ms[1..])
  }
}

=== FILE: message_consumer.dfy ===
/**
 * The consumer (src/infrastructure/services/MessageConsumer.ts): it
 * subscribes one callback to the "messages" queue, and that callback hands
 * each delivered message to the receive use case, rethrowing its failure.
 */
module MessageConsumer {
  import opened Results
  import opened Messages
  import opened QueuePort
  import opened MessageRepository
  import opened ReceiveMessage
  import opened InMemoryQueue

  /** The one kind of callback in the application: the consumer's forwarder. */
  datatype Handler = ReceiveForwarder

  /**
   * The forwarder's behaviour: pass the message unchanged to the receive use
   * case; a thrown error is rethrown, so the queue sees a failed delivery.
   */
  function Handle(h: Handler, m: Message, repo: Repository): (o: Outcome<Repository>)
    ensures o.ok <==> Receive(repo, m).Ok?
    ensures o.ok ==> o.world == Receive(repo, m).value
    ensures !o.ok ==> o.world == repo
  {
    match Receive(repo, m)
    case Ok(r) => Outcome(true, r)
    case Err(_) => Outcome(false, repo)
  }

  /**
   * Running forwarder calls one after the other: no record is created or
   * reordered, every stored id mentioned by a call ends DELIVERED with its
   * other fields kept, every other record is untouched, and a call fails
   * exactly when its id is unknown.
   */
  lemma {:induction false} DispatchReceive(calls: seq<Call<Handler>>, repo: Repository)
    ensures Dispatch(Handle, calls, repo).world.records.Keys == repo.records.Keys
    ensures Dispatch(Handle, calls, repo).world.order == repo.order
    ensures forall id :: id in repo.records ==>
              Dispatch(Handle, calls, repo).world.records[id]
              == (if id in Ids(MessagesOf(calls)) then repo.records[id].(status := Delivered) else repo.records[id])
    ensures forall i :: 0 <= i < |calls| ==>
              (Dispatch(Handle, calls, repo).deliveries[i].ok <==> calls[i].message.id in repo.records)
    decreases |calls|
  {
    if calls != [] {
      var o := Handle(calls[0].handler, calls[0].message, repo);
      var rest := calls[1..];
      DispatchReceive(rest, o.world);
      assert MessagesOf(calls)[1..] == MessagesOf(rest);
      assert Ids(MessagesOf(calls)) == {calls[0].message.id} + Ids(MessagesOf(rest));
      var d := Dispatch(Handle, calls, repo);
      assert d.deliveries == [Delivery(calls[0], o.ok)] + Dispatch(Handle, rest, o.world).deliveries;
      forall i | 0 <= i < |calls|
        ensures d.deliveries[i].ok <==> calls[i].message.id in repo.records
      {
        if i > 0 {
          assert d.deliveries[i] == Dispatch(Handle, rest, o.world).deliveries[i - 1];
          assert calls[i] == rest[i - 1];
        }
      }
    }
  }

  /**
   * `start()`: subscribe the forwarder, once, to "messages". The backlog is
   * replayed to it: every logged message whose id is stored ends DELIVERED,
   * a logged message with an unknown id fails and is swallowed by the queue,
   * and nothing else in the store changes.
   */
  function Start(b: Queue<Handler>, repo: Repository): (r: Effect<Handler, Repository>)
    ensures Subscribers(r.queue, MessagesQueue) == Subscribers(b, MessagesQueue) + [ReceiveForwarder]
    ensures forall q :: q != MessagesQueue ==> Subscribers(r.queue, q) == Subscribers(b, q)
    ensures r.queue.logs == b.logs
    ensures r.world.records.Keys == repo.records.Keys && r.world.order == repo.order
    ensures forall id :: id in repo.records ==>
              r.world.records[id]
              == (if id in Ids(Log(b, MessagesQueue)) then repo.records[id].(status := Delivered) else repo.records[id])
    ensures |r.deliveries| == |Log(b, MessagesQueue)|
    ensures forall i :: 0 <= i < |r.deliveries| ==>
              (r.deliveries[i].ok <==> Log(b, MessagesQueue)[i].id in repo.records)
  {
    var calls := Replay(MessagesQueue, ReceiveForwarder, Log(b, MessagesQueue));
    DispatchReceive(calls, repo);
    assert MessagesOf(calls) == Log(b, MessagesQueue);
    Subscribe(b, MessagesQueue, ReceiveForwarder, Handle, repo)
  }
}

=== FILE: message_repository.dfy ===
/**
 * The in-memory message store (src/infrastructure/repositories/InMemoryMessageRepository.ts).
 *
 * A JavaScript Map from id to Message. Besides the map itself the model
 * keeps the Map's insertion order, because `findAll` returns the values in
 * that order: the position of an id is fixed by its first `set`, and a later
 * `set` of the same id replaces the value in place.
 */
module MessageRepository {
  import opened Results
  import opened Messages

  datatype Repository = Repository(records: map<string, Message>, order: seq<string>)

  function Empty(): (r: Repository)
    ensures Valid(r)
  {
    Repository(map[], [])
  }

  /**
   * The representation invariant: `order` lists every stored id exactly
   * once, and every record is stored under its own id.
   */
  ghost predicate Valid(r: Repository) {
    && (forall i, j :: 0 <= i < j < |r.order| ==> r.order[i] != r.order[j])
    && (forall id :: id in r.records <==> id in r.order)
    && (forall id :: id in r.records ==> r.records[id].id == id)
  }

  /** `save(m)`: store `m` under `m.id`, replacing any record with that id. */
  function Save(r: Repository, m: Message): (r': Repository)
    ensures FindById(r', m.id) == Some(m)
    ensures forall id :: id != m.id ==> FindById(r', id) == FindById(r, id)
    ensures m.id in r.records ==> r'.order == r.order
    ensures m.id !in r.records ==> r'.order == r.order + [m.id]
    ensures Valid(r) ==> Valid(r')
  {
    Repository(r.records[m.id := m], if m.id in r.records then r.order else r.order + [m.id])
  }

  /** `findById(id)`: the stored record, or None (`null`) when there is none. */
  function FindById(r: Repository, id: string): (found: Option<Message>)
    ensures found.None? <==> id !in r.records
    ensures found.Some? ==> found.value == r.records[id]
    ensures Valid(r) && found.Some? ==> found.value.id == id
  {
    if id in r.records then Some(r.records[id]) else None
  }

  /**
   * `updateStatus(id, s)`: replace the status of the record stored under
   * `id`, keeping its other fields; an unknown id leaves the store as it is.
   */
  function UpdateStatus(r: Repository, id: string, s: Status): (r': Repository)
    ensures id in r.records ==> FindById(r', id) == Some(r.records[id].(status := s))
    ensures id !in r.records ==> r' == r
    ensures forall other :: other != id ==> FindById(r', other) == FindById(r, other)
    ensures r'.records.Keys == r.records.Keys
    ensures r'.order == r.order
    ensures Valid(r) ==> Valid(r')
  {
    match FindById(r, id)
    case Some(m) => r.(records := r.records[id := m.(status := s)])
    case None => r
  }

  /**
   * `findAll()`: every stored record once, in the order in which its id was
   * first saved.
   */
  function FindAll(r: Repository): (all: seq<Message>)
    requires Valid(r)
    ensures |all| == |r.order| == |r.records|
    ensures forall i :: 0 <= i < |all| ==> all[i].id == r.order[i] && all[i] == r.records[all[i].id]
    ensures forall id :: id in r.records <==> exists i :: 0 <= i < |all| && all[i].id == id
    ensures forall i, j :: 0 <= i < j < |all| ==> all[i].id != all[j].id
  {
    DistinctCardinality(r.order);
    assert r.records.Keys == set id | id in r.order;
    Lookup(r.records, r.order)
  }

  /** The records stored under `ids`, in the order of `ids`. */
  function Lookup(records: map<string, Message>, ids: seq<string>): (found: seq<Message>)
    requires forall id :: id in ids ==> id in records
    ensures |found| == |ids|
    ensures forall i :: 0 <= i < |ids| ==> found[i] == records[ids[i]]
    decreases |ids|
  {
    if ids == [] then []
    else Lookup(records, ids[..|ids| - 1]) + [records[ids[|ids| - 1]]]
  }

  /** A sequence without repetitions has as many elements as its set of elements. */
  lemma {:induction false} DistinctCardinality(s: seq<string>)
    requires forall i, j :: 0 <= i < j < |s| ==> s[i] != s[j]
    ensures |set x | x in s| == |s|
  {
    if s != [] {
      var t := s[..|s| - 1];
      DistinctCardinality(t);
      assert (set x | x in s) == (set x | x in t) + {s[|s| - 1]};
      assert s[|s| - 1] !in (set x | x in t);
    }
  }

  /** Looking up ids in two stores that agree on those ids gives the same records. */
  lemma {:induction false} LookupAgree(a: map<string, Message>, b: map<string, Message>, ids: seq<string>)
    requires forall id :: id in ids ==> id in a && id in b && a[id] == b[id]
    ensures Lookup(a, ids) == Lookup(b, ids)
    decreases |ids|
  {
    if ids != [] {
      LookupAgree(a, b, ids[..|ids| - 1]);
    }
  }

  /** A store that gained one record at the end of its order lists that record last in `findAll`. */
  lemma FindAllAppend(r: Repository, r': Repository, m: Message)
    requires Valid(r) && Valid(r')
    requires r'.order == r.order + [m.id]
    requires m.id in r'.records && r'.records[m.id] == m
    requires forall k :: k in r.records ==> k in r'.records && r'.records[k] == r.records[k]
    ensures FindAll(r') == FindAll(r) + [m]
  {
    assert r'.order[..|r'.order| - 1] == r.order;
    LookupAgree(r.records, r'.records, r.order);
  }

  // ----- Histories of repository operations -----

  datatype Command = SaveCmd(message: Message) | UpdateStatusCmd(id: string, status: Status)

  /** The repository a fresh store reaches after `cmds`, in order. */
  function Rebuild(cmds: seq<Command>): (r: Repository)
    decreases |cmds|
  {
    if cmds == [] then Empty()
    else
      var r := Rebuild(cmds[..|cmds| - 1]);
      match cmds[|cmds| - 1]
      case SaveCmd(m) => Save(r, m)
      case UpdateStatusCmd(id, s) => UpdateStatus(r, id, s)
  }

  /** The ids `cmds` save, in order, repetitions included. */
  function SavedIds(cmds: seq<Command>): (ids: seq<string>)
    decreases |cmds|
  {
    if cmds == [] then []
    else
      var last := cmds[|cmds| - 1];
      SavedIds(cmds[..|cmds| - 1]) + (if last.SaveCmd? then [last.message.id] else [])
  }

  /** `ids` with every repetition after the first occurrence dropped. */
  function FirstOccurrences(ids: seq<string>): (firsts: seq<string>)
    ensures forall id :: id in firsts <==> id in ids
    decreases |ids|
  {
    if ids == [] then []
    else
      var p := FirstOccurrences(ids[..|ids| - 1]);
      var last := ids[|ids| - 1];
      assert ids == ids[..|ids| - 1] + [last];
      if last in p then p else p + [last]
  }

  /**
   * Every history leaves a valid store whose id order is the order of first
   * saves, and `findById` finds nothing exactly for the ids never saved.
   */
  lemma {:induction false} RebuildHistory(cmds: seq<Command>)
    ensures Valid(Rebuild(cmds))
    ensures Rebuild(cmds).order == FirstOccurrences(SavedIds(cmds))
    ensures forall id :: FindById(Rebuild(cmds), id).None? <==> id !in SavedIds(cmds)
    decreases |cmds|
  {
    if cmds != [] {
      var prefix := cmds[..|cmds| - 1];
      var r := Rebuild(prefix);
      RebuildHistory(prefix);
      var ids := SavedIds(prefix);
      match cmds[|cmds| - 1]
      case SaveCmd(m) =>
        assert Rebuild(cmds) == Save(r, m);
        assert SavedIds(cmds) == ids + [m.id];
        assert FirstOccurrences(SavedIds(cmds)) == if m.id in FirstOccurrences(ids) then FirstOccurrences(ids) else FirstOccurrences(ids) + [m.id] by {
          assert SavedIds(cmds)[..|SavedIds(cmds)| - 1] == ids;
        }
        assert m.id in r.records <==> m.id in r.order;
      case UpdateStatusCmd(id, s) =>
        assert Rebuild(cmds) == UpdateStatus(r, id, s);
        assert SavedIds(cmds) == ids;
    }
  }

  /**
   * `findAll` after a history lists one record per saved id, ordered by the
   * first save of each id; later saves and status updates keep positions.
   */
  lemma FindAllOrder(cmds: seq<Command>)
    ensures Valid(Rebuild(cmds))
    ensures |FindAll(Rebuild(cmds))| == |FirstOccurrences(SavedIds(cmds))|
    ensures forall i :: 0 <= i < |FindAll(Rebuild(cmds))| ==>
              FindAll(Rebuild(cmds))[i].id == FirstOccurrences(SavedIds(cmds))[i]
  {
    RebuildHistory(cmds);
  }
}

=== FILE: queue_port.dfy ===
/**
 * The queue port shared by both adapters (src/domain/services/IMessageQueue.ts).
 * A callback is not a JavaScript closure here: each adapter is given a
 * function saying what the callback does to the world it acts on and
 * whether it resolved (true) or threw (false).
 */
module QueuePort {

  /** Queue names are opaque strings. */
  type QueueName = string

  /** The queue the send use case publishes to and the consumer listens on. */
  const MessagesQueue: QueueName := "messages"

  /** What one callback invocation did: resolved or threw, and the world afterwards. */
  datatype Outcome<+W> = Outcome(ok: bool, world: W)
}

=== FILE: rabbitmq_queue.dfy ===
/**
 * The broker-backed queue (src/infrastructure/services/RabbitMQMessageQueue.ts).
 *
 * The amqplib connection and channel are reduced to one flag, `handles`:
 * both are set together by a successful connect and cleared together by the
 * error path, so they are never present one without the other. Timers are
 * values with an identity and a delay; `scheduled` lists the timers the
 * runtime still holds (set and neither fired nor cancelled), while
 * `reconnect` is the adapter's `reconnectTimeout` field, which keeps the
 * last timer stored even after it fired. `process.exit(1)` is the state
 * `Exited`, which no later event leaves. What the broker does is an input:
 * whether a connect attempt succeeds, whether a channel operation is
 * rejected, and which frames arrive.
 */
module RabbitMQQueue {
  import opened Results
  import opened Messages
  import opened QueuePort

  /** `maxRetries`. */
  const MaxRetries: nat := 5
  /** The backoff base and ceiling, in milliseconds. */
  const BaseDelayMs: nat := 1000
  const MaxDelayMs: nat := 30000
  /** `x-message-ttl` of every declared queue: 24 hours in milliseconds. */
  const MessageTtlMs: nat := 86400000
  /** The status the process exits with when retries are exhausted. */
  const ExitCode: int := 1

  function Pow2(n: nat): (p: nat)
    ensures p >= 1
  {
    if n == 0 then 1 else 2 * Pow2(n - 1)
  }

  lemma {:induction false} Pow2Monotone(m: nat, n: nat)
    requires m <= n
    ensures Pow2(m) <= Pow2(n)
    decreases n
  {
    if m < n {
      Pow2Monotone(m, n - 1);
    }
  }

  lemma Pow2Bounds(n: nat)
    ensures n >= 1 ==> Pow2(n) >= 2
    ensures n >= 5 ==> Pow2(n) >= 32
  {
    if n >= 1 { Pow2Monotone(1, n); }
    if n >= 5 { Pow2Monotone(5, n); }
  }

  function Min(a: nat, b: nat): (m: nat) {
    if a <= b then a else b
  }

  /**
   * The delay before reconnect attempt `n`: `min(1000 * 2^n, 30000)`. For
   * the attempt numbers the error path uses (1 to 5) it lies between 2000
   * and 30000, and from attempt 5 on the ceiling applies.
   */
  function Backoff(n: nat): (delay: nat)
    ensures delay <= MaxDelayMs
    ensures delay <= BaseDelayMs * Pow2(n)
    ensures delay == MaxDelayMs || delay == BaseDelayMs * Pow2(n)
    ensures n >= 1 ==> delay >= 2 * BaseDelayMs
    ensures n >= 5 ==> delay == MaxDelayMs
  {
    Pow2Bounds(n);
    Min(BaseDelayMs * Pow2(n), MaxDelayMs)
  }

  /** Each delay doubles the previous one until the ceiling stops it. */
  lemma BackoffDoubles(n: nat)
    ensures Backoff(n + 1) == Min(2 * Backoff(n), MaxDelayMs)
  {
  }

  /** The delays of attempts 1 to 5 are 2000, 4000, 8000, 16000 and 30000 ms. */
  lemma BackoffSchedule()
    ensures Backoff(1) == 2000 && Backoff(2) == 4000 && Backoff(3) == 8000
    ensures Backoff(4) == 16000 && Backoff(5) == 30000
  {
    assert Pow2(5) == 32;
  }

  // ----- Connection supervision -----

  /** A `setTimeout` handle: its identity, and the delay it was set with. */
  datatype Timer = Timer(id: nat, delayMs: nat)

  /**
   * The adapter's mutable fields. `nextTimer` is where the runtime would
   * take the identity of the next timer from.
   */
  datatype Supervisor =
    | Running(handles: bool, retryCount: nat, reconnect: Option<Timer>, scheduled: seq<Timer>, nextTimer: nat)
    | Exited(code: int)

  /** A freshly constructed adapter: no handles, no retries, no timer. */
  function Init(): (s: Supervisor)
    ensures Inv(s)
  {
    Running(false, 0, None, [], 0)
  }

  /**
   * What holds in every reachable state: the counter stays within
   * `maxRetries`; a live connection comes with a counter of 0; and at most
   * one reconnect is pending, the one the `reconnectTimeout` field holds.
   */
  predicate Inv(s: Supervisor) {
    s.Running? ==>
      && s.retryCount <= MaxRetries
      && (s.handles ==> s.retryCount == 0)
      && (s.scheduled == [] || (s.reconnect.Some? && s.scheduled == [s.reconnect.value]))
  }

  /** The pending timers once `clearTimeout(t)` has run; a timer that already fired is not there. */
  function Cancel(scheduled: seq<Timer>, t: Option<Timer>): (rest: seq<Timer>)
    ensures forall x :: x in rest <==> x in scheduled && t != Some(x)
    ensures |rest| <= |scheduled|
  {
    if scheduled == [] then []
    else (if t == Some(scheduled[0]) then [] else [scheduled[0]]) + Cancel(scheduled[1..], t)
  }

  /**
   * `handleConnectionError`: drop both handles; below `maxRetries`, count
   * one more attempt and replace any pending reconnect by a single new one
   * delayed by the backoff of the new count; at `maxRetries`, exit with
   * status 1 without counting and without a timer.
   */
  function HandleConnectionError(s: Supervisor): (r: Supervisor)
    ensures s.Exited? ==> r == s
    ensures s.Running? && s.retryCount < MaxRetries ==>
              && r.Running? && !r.handles
              && r.retryCount == s.retryCount + 1
              && r.reconnect.Some? && r.reconnect.value.delayMs == Backoff(r.retryCount)
              && r.reconnect.value in r.scheduled
              && r.reconnect.value.id == s.nextTimer && r.nextTimer == s.nextTimer + 1
              && (forall t :: t in r.scheduled && t != r.reconnect.value ==> t in s.scheduled && s.reconnect != Some(t))
    ensures s.Running? && s.retryCount >= MaxRetries ==> r == Exited(ExitCode)
    ensures Inv(s) ==> Inv(r)
    ensures Inv(s) && r.Running? ==> r.scheduled == [r.reconnect.value]
  {
    match s
    case Exited(_) => s
    case Running(_, n, previous, scheduled, next) =>
      if n < MaxRetries then
        var t := Timer(next, Backoff(n + 1));
        var rest := Cancel(scheduled, previous);
        Running(false, n + 1, Some(t), rest + [t], next + 1)
      else
        Exited(ExitCode)
  }

  /** What one connect attempt meets: `amqp.connect` or `createChannel` may reject. */
  datatype Attempt = Connects | ConnectFails | ChannelFails

  /** The state after `ensureConnection`, and whether the call resolved. */
  datatype Connecting = Connecting(state: Supervisor, ok: bool)

  /**
   * `ensureConnection`: with both handles present it returns at once and
   * the attempt is not made. Otherwise a successful connect sets the
   * handles and resets the counter to 0, leaving any pending reconnect in
   * place; a failed one runs the error path and then rethrows.
   */
  function EnsureConnection(s: Supervisor, a: Attempt): (c: Connecting)
    ensures s.Running? && s.handles ==> c == Connecting(s, true)
    ensures c.ok <==> s.Running? && (s.handles || a.Connects?)
    ensures c.ok ==> c.state.Running? && c.state.handles
    ensures c.ok ==> c.state.scheduled == s.scheduled && c.state.reconnect == s.reconnect
    ensures s.Running? && !s.handles && a.Connects? ==> c.state.retryCount == 0
    ensures s.Running? && !s.handles && !a.Connects? ==> !c.ok && c.state == HandleConnectionError(s)
    ensures s.Exited? ==> c == Connecting(s, false)
    ensures Inv(s) ==> Inv(c.state)
  {
    match s
    case Exited(_) => Connecting(s, false)
    case Running(handles, _, _, _, _) =>
      if handles then Connecting(s, true)
      else if a.Connects? then Connecting(s.(handles := true, retryCount := 0), true)
      else Connecting(HandleConnectionError(s), false)
  }

  /**
   * What can happen to the adapter: a publish or subscribe calls
   * `ensureConnection`; a listener of some connection reports `'error'` or
   * `'close'`; the pending reconnect fires and calls `ensureConnection`,
   * whose rejection is caught and logged.
   */
  datatype Event = Call(attempt: Attempt) | ConnectionLost | TimerFires(attempt: Attempt)

  function Step(s: Supervisor, e: Event): (r: Supervisor)
    ensures Inv(s) ==> Inv(r)
    ensures s.Exited? ==> r == s
  {
    match e
    case Call(a) => EnsureConnection(s, a).state
    case ConnectionLost => HandleConnectionError(s)
    case TimerFires(a) =>
      if s.Running? && s.scheduled != [] then
        EnsureConnection(s.(scheduled := s.scheduled[1..]), a).state
      else s
  }

  function Run(s: Supervisor, es: seq<Event>): (r: Supervisor)
    decreases |es|
  {
    if es == [] then s else Run(Step(s, es[0]), es[1..])
  }

  /** Whatever happens, the invariant holds from construction on. */
  lemma {:induction false} RunPreservesInv(s: Supervisor, es: seq<Event>)
    requires Inv(s)
    ensures Inv(Run(s, es))
    ensures s.Exited? ==> Run(s, es) == s
    decreases |es|
  {
    if es != [] {
      RunPreservesInv(Step(s, es[0]), es[1..]);
    }
  }

  /** Every reachable state keeps the counter in 0..5 and at most one reconnect pending. */
  lemma Reachable(es: seq<Event>)
    ensures var s := Run(Init(), es);
            s.Running? ==> s.retryCount <= MaxRetries && |s.scheduled| <= 1
  {
    RunPreservesInv(Init(), es);
  }

  /**
   * An event that counts as one failed attempt when the handles are gone: a
   * lost connection, or a connect that fails, whether a publish or subscribe
   * or the pending reconnect made it.
   */
  predicate Failure(e: Event) {
    e.ConnectionLost? || (e.Call? && !e.attempt.Connects?) || (e.TimerFires? && !e.attempt.Connects?)
  }

  /**
   * A failure runs the error path once the handles are gone or the failure
   * is a lost connection; a failing reconnect needs a pending timer to fire.
   */
  lemma FailureStep(s: Supervisor, e: Event)
    requires Inv(s) && s.Running? && Failure(e) && (!s.handles || e.ConnectionLost?)
    requires e.TimerFires? ==> s.scheduled != []
    ensures Step(s, e) == HandleConnectionError(s)
  {
    if e.TimerFires? {
      var fired := s.(scheduled := s.scheduled[1..]);
      assert fired.scheduled == [];
      assert Cancel(s.scheduled, s.reconnect) == [];
      assert Step(s, e) == HandleConnectionError(fired);
    }
  }

  /**
   * Consecutive failures: starting without a live connection (or losing it
   * first), `k` failures raise the counter by `k` and leave exactly one
   * reconnect pending, delayed by the backoff of the new count, as long as
   * the counter stays within `maxRetries`; one failure more exits with
   * status 1.
   */
  lemma {:induction false} ConsecutiveFailures(s: Supervisor, es: seq<Event>)
    requires Inv(s) && s.Running?
    requires forall i :: 0 <= i < |es| ==> Failure(es[i])
    requires s.handles ==> es != [] && es[0].ConnectionLost?
    requires es != [] && es[0].TimerFires? ==> s.scheduled != []
    ensures var r := Run(s, es);
            if s.retryCount + |es| <= MaxRetries then
              && r.Running?
              && r.retryCount == s.retryCount + |es|
              && (es != [] ==> && !r.handles
                               && r.reconnect.Some?
                               && r.reconnect.value.delayMs == Backoff(r.retryCount)
                               && r.scheduled == [r.reconnect.value])
            else r == Exited(ExitCode)
    decreases |es|
  {
    if es != [] {
      var s' := Step(s, es[0]);
      FailureStep(s, es[0]);
      if s.retryCount < MaxRetries {
        ConsecutiveFailures(s', es[1..]);
      } else {
        RunPreservesInv(s', es[1..]);
      }
    }
  }

  /** `k` consecutive failed connect attempts. */
  function Failures(k: nat): (es: seq<Event>)
    ensures |es| == k
    ensures forall i :: 0 <= i < k ==> es[i] == Call(ConnectFails)
  {
    seq(k, i => Call(ConnectFails))
  }

  /**
   * One failed publish or subscribe against an unreachable broker, then the
   * reconnects it schedules, each failing in turn: `k` attempts in all.
   */
  function SelfDriven(k: nat): (es: seq<Event>)
    ensures |es| == k
    ensures k > 0 ==> es[0] == Call(ConnectFails)
    ensures forall i :: 0 < i < k ==> es[i] == TimerFires(ConnectFails)
  {
    seq(k, i => if i == 0 then Call(ConnectFails) else TimerFires(ConnectFails))
  }

  /**
   * From a fresh adapter, failed attempts 1 to 5 schedule reconnects after
   * 2000, 4000, 8000, 16000 and 30000 ms; the sixth exits with status 1,
   * after which a publish or subscribe fails at once without a connect.
   * This holds whether the failed attempts are calls of the adapter or the
   * adapter's own reconnects: one failed call against a broker that stays
   * down is enough for the process to exit after five reconnects.
   */
  lemma RetryExhaustion(k: nat, a: Attempt)
    ensures 1 <= k <= MaxRetries ==>
              && Run(Init(), Failures(k)).Running?
              && Run(Init(), Failures(k)).retryCount == k
              && |Run(Init(), Failures(k)).scheduled| == 1
              && Run(Init(), Failures(k)).scheduled[0].delayMs == Backoff(k)
    ensures k > MaxRetries ==> Run(Init(), Failures(k)) == Exited(ExitCode)
    ensures k > MaxRetries ==> !EnsureConnection(Run(Init(), Failures(k)), a).ok
    ensures 1 <= k <= MaxRetries ==>
              && Run(Init(), SelfDriven(k)).Running?
              && Run(Init(), SelfDriven(k)).retryCount == k
              && |Run(Init(), SelfDriven(k)).scheduled| == 1
              && Run(Init(), SelfDriven(k)).scheduled[0].delayMs == Backoff(k)
    ensures k > MaxRetries ==> Run(Init(), SelfDriven(k)) == Exited(ExitCode)
  {
    ConsecutiveFailures(Init(), Failures(k));
    ConsecutiveFailures(Init(), SelfDriven(k));
  }

  /**
   * A dropped connection is restored by the reconnect it schedules: losing
   * a live connection leaves one reconnect pending after 2000 ms with the
   * counter at 1, and a successful firing restores the handles with the
   * counter back at 0 and nothing pending.
   */
  lemma DropAndRecover(s: Supervisor)
    requires Inv(s) && s.Running? && s.handles
    ensures var lost := Step(s, ConnectionLost);
            && lost.Running? && !lost.handles && lost.retryCount == 1
            && |lost.scheduled| == 1 && lost.scheduled[0].delayMs == 2000
            && var back := Step(lost, TimerFires(Connects));
               back.Running? && back.handles && back.retryCount == 0 && back.scheduled == []
  {
    BackoffSchedule();
  }

  // ----- Publishing and subscribing over a channel -----

  /** The `assertQueue` options: durability and `x-message-ttl`. */
  datatype QueueOptions = QueueOptions(durable: bool, messageTtlMs: nat)

  /** The options both `publish` and `subscribe` declare a queue with. */
  const DurableQueue: QueueOptions := QueueOptions(true, MessageTtlMs)

  /**
   * A frame body: the JSON text of a message as the adapter wrote it, or
   * any other text a producer put on the queue.
   */
  datatype Payload = Serialized(message: Message) | Foreign(text: string)

  /** The operations the adapter performs on its channel. */
  datatype ChannelCall =
    | AssertQueue(queue: QueueName, options: QueueOptions)
    | SendToQueue(queue: QueueName, payload: Payload, persistent: bool)
    | ConsumeFrom(queue: QueueName)

  /** Which channel operation, if any, the broker rejects. */
  datatype Fault = NoFault | DeclareRejected | SendRejected

  /** The supervisor after an adapter call, the channel operations made, and whether the call resolved. */
  datatype Adapted = Adapted(state: Supervisor, calls: seq<ChannelCall>, ok: bool)

  /**
   * `publish(q, m)`: make sure of a connection (a failure there propagates
   * before any channel operation), declare `q` durable with a 24-hour TTL,
   * then send the serialized message as persistent. A rejected declaration
   * or send is rethrown; it does not touch the connection state.
   */
  function Publish(s: Supervisor, a: Attempt, q: QueueName, m: Message, f: Fault): (r: Adapted)
    ensures r.state == EnsureConnection(s, a).state
    ensures r.ok <==> EnsureConnection(s, a).ok && f.NoFault?
    ensures !EnsureConnection(s, a).ok ==> r.calls == []
    ensures EnsureConnection(s, a).ok ==> |r.calls| >= 1 && r.calls[0] == AssertQueue(q, DurableQueue)
    ensures forall i :: 0 <= i < |r.calls| ==> r.calls[i] in [AssertQueue(q, DurableQueue), SendToQueue(q, Serialized(m), true)]
    ensures r.ok ==> r.calls == [AssertQueue(q, DurableQueue), SendToQueue(q, Serialized(m), true)]
    ensures SendToQueue(q, Serialized(m), true) in r.calls <==> EnsureConnection(s, a).ok && !f.DeclareRejected?
  {
    var c := EnsureConnection(s, a);
    if !c.ok then Adapted(c.state, [], false)
    else match f
      case DeclareRejected => Adapted(c.state, [AssertQueue(q, DurableQueue)], false)
      case SendRejected => Adapted(c.state, [AssertQueue(q, DurableQueue), SendToQueue(q, Serialized(m), true)], false)
      case NoFault => Adapted(c.state, [AssertQueue(q, DurableQueue), SendToQueue(q, Serialized(m), true)], true)
  }

  /**
   * `subscribe(q, cb)`: make sure of a connection, declare `q` exactly as
   * `publish` does, then register the consumer. `consume` is not awaited,
   * so only a rejected declaration makes the call fail.
   */
  function Subscribe(s: Supervisor, a: Attempt, q: QueueName, declared: bool): (r: Adapted)
    ensures r.state == EnsureConnection(s, a).state
    ensures r.ok <==> EnsureConnection(s, a).ok && declared
    ensures !EnsureConnection(s, a).ok ==> r.calls == []
    ensures EnsureConnection(s, a).ok ==> |r.calls| >= 1 && r.calls[0] == AssertQueue(q, DurableQueue)
    ensures r.ok ==> r.calls == [AssertQueue(q, DurableQueue), ConsumeFrom(q)]
    ensures ConsumeFrom(q) in r.calls ==> r.ok
    ensures EnsureConnection(s, a).ok && !declared ==> r.calls == [AssertQueue(q, DurableQueue)]
  {
    var c := EnsureConnection(s, a);
    if !c.ok then Adapted(c.state, [], false)
    else if !declared then Adapted(c.state, [AssertQueue(q, DurableQueue)], false)
    else Adapted(c.state, [AssertQueue(q, DurableQueue), ConsumeFrom(q)], true)
  }

  /**
   * A producer and a consumer of the same queue declare it identically, so
   * the broker never sees conflicting declarations from this adapter, and
   * nothing is sent or consumed without a live connection first.
   */
  lemma DeclarationsAgree(s1: Supervisor, a1: Attempt, s2: Supervisor, a2: Attempt, q: QueueName, m: Message, f: Fault, declared: bool)
    ensures var p := Publish(s1, a1, q, m, f);
            var c := Subscribe(s2, a2, q, declared);
            p.calls != [] && c.calls != [] ==> p.calls[0] == c.calls[0] == AssertQueue(q, QueueOptions(true, 86400000))
    ensures Publish(s1, a1, q, m, f).calls != [] ==> Publish(s1, a1, q, m, f).state.handles
    ensures Subscribe(s2, a2, q, declared).calls != [] ==> Subscribe(s2, a2, q, declared).state.handles
  {
  }

  /** After `process.exit`, a publish or subscribe does nothing and never resolves. */
  lemma ExitedIsFinal(code: int, a: Attempt, q: QueueName, m: Message, f: Fault, declared: bool, es: seq<Event>)
    ensures Publish(Exited(code), a, q, m, f) == Adapted(Exited(code), [], false)
    ensures Subscribe(Exited(code), a, q, declared) == Adapted(Exited(code), [], false)
    ensures Run(Exited(code), es) == Exited(code)
  {
    RunPreservesInv(Exited(code), es);
  }

  // ----- Settling delivered frames -----

  /** What the consume callback does with one frame: nothing, `ack`, or `nack(allUpTo, requeue)`. */
  datatype Decision = Ignore | Ack | Nack(allUpTo: bool, requeue: bool)

  datatype Consumed<W> = Consumed(decision: Decision, world: W)

  /**
   * The consume callback for one frame. A null frame (the consumer was
   * cancelled) is ignored. Otherwise the body is parsed; if that fails, or
   * the callback fails, the frame is rejected with requeue and without
   * touching earlier frames; if both succeed it is acknowledged.
   */
  function OnMessage<W>(frame: Option<Payload>, parse: Payload -> Option<Message>,
                        callback: (Message, W) -> Outcome<W>, w: W): (r: Consumed<W>)
    ensures frame.None? <==> r.decision == Ignore
    ensures r.decision == Ack <==> frame.Some? && parse(frame.value).Some? && callback(parse(frame.value).value, w).ok
    ensures frame.Some? && r.decision != Ack ==> r.decision == Nack(false, true)
    ensures frame.None? || parse(frame.value).None? ==> r.world == w
    ensures frame.Some? && parse(frame.value).Some? ==> r.world == callback(parse(frame.value).value, w).world
  {
    match frame
    case None => Consumed(Ignore, w)
    case Some(p) =>
      match parse(p)
      case None => Consumed(Nack(false, true), w)
      case Some(m) =>
        var o := callback(m, w);
        Consumed(if o.ok then Ack else Nack(false, true), o.world)
  }

  /**
   * `this.channel?.ack(msg)` and `nack`: the decision reaches the broker
   * only while the adapter holds a channel; otherwise nothing is sent and
   * the broker keeps the frame unacknowledged.
   */
  function Settle(s: Supervisor, d: Decision): (sent: Option<Decision>)
    ensures sent.Some? <==> d != Ignore && s.Running? && s.handles
    ensures sent.Some? ==> sent.value == d
  {
    if d != Ignore && s.Running? && s.handles then Some(d) else None
  }

  /**
   * While the adapter holds its channel, a delivered frame is settled with
   * exactly one of `ack` and `nack(msg, false, true)`; once the connection
   * is lost, nothing is sent for it, so the broker keeps it unacknowledged.
   */
  lemma SettleDelivered<W>(s: Supervisor, p: Payload, parse: Payload -> Option<Message>,
                           callback: (Message, W) -> Outcome<W>, w: W)
    requires s.Running? && s.handles
    ensures var d := OnMessage(Some(p), parse, callback, w).decision;
            Settle(s, d) == Some(Ack) || Settle(s, d) == Some(Nack(false, true))
    ensures var d := OnMessage(Some(p), parse, callback, w).decision;
            Settle(s, d) == Some(Ack) <==> parse(p).Some? && callback(parse(p).value, w).ok
    ensures forall d :: Settle(Step(s, ConnectionLost), d) == None
  {
  }

  datatype Settled<W> = Settled(decisions: seq<Decision>, world: W)

  /** The decisions for frames handled one after the other, each on the world the previous one left. */
  function ConsumeAll<W>(frames: seq<Option<Payload>>, parse: Payload -> Option<Message>,
                         callback: (Message, W) -> Outcome<W>, w: W): (r: Settled<W>)
    ensures |r.decisions| == |frames|
    ensures frames != [] ==> r.decisions[0] == OnMessage(frames[0], parse, callback, w).decision
    ensures forall i :: 0 <= i < |frames| ==> (r.decisions[i] == Ignore <==> frames[i].None?)
    ensures forall i :: 0 <= i < |frames| && frames[i].Some? && r.decisions[i] != Ack ==> r.decisions[i] == Nack(false, true)
    ensures forall i :: 0 <= i < |frames| && frames[i].Some? && parse(frames[i].value).None? ==> r.decisions[i] == Nack(false, true)
    decreases |frames|
  {
    if frames == [] then Settled([], w)
    else
      var first := OnMessage(frames[0], parse, callback, w);
      var rest := ConsumeAll(frames[1..], parse, callback, first.world);
      Settled([first.decision] + rest.decisions, rest.world)
  }

  /**
   * Frame `i` is decided by handling it on the world the frames before it
   * left: it is acked exactly when its parse and the callback on that world
   * succeed, whatever happened to earlier frames.
   */
  lemma {:induction false} ConsumeAllRunsInOrder<W>(frames: seq<Option<Payload>>, parse: Payload -> Option<Message>,
                                                    callback: (Message, W) -> Outcome<W>, w: W, i: nat)
    requires i < |frames|
    ensures ConsumeAll(frames, parse, callback, w).decisions[i]
            == OnMessage(frames[i], parse, callback, ConsumeAll(frames[..i], parse, callback, w).world).decision
    ensures frames[i].Some? ==>
              (ConsumeAll(frames, parse, callback, w).decisions[i] == Ack
               <==> parse(frames[i].value).Some?
                    && callback(parse(frames[i].value).value, ConsumeAll(frames[..i], parse, callback, w).world).ok)
    decreases i
  {
    var first := OnMessage(frames[0], parse, callback, w);
    if i > 0 {
      ConsumeAllRunsInOrder(frames[1..], parse, callback, first.world, i - 1);
      assert frames[..i][0] == frames[0];
      assert frames[..i][1..] == frames[1..][..i - 1];
      assert ConsumeAll(frames[..i], parse, callback, w).world
             == ConsumeAll(frames[1..][..i - 1], parse, callback, first.world).world;
      assert frames[1..][i - 1] == frames[i];
    } else {
      assert frames[..0] == [];
    }
  }

  /**
   * No redelivery cap: a frame whose parse or callback always fails is
   * rejected with requeue every time it arrives, however often that is.
   */
  lemma {:induction false} NoRedeliveryCap<W>(p: Payload, k: nat, parse: Payload -> Option<Message>,
                                              callback: (Message, W) -> Outcome<W>, w: W)
    requires parse(p).None? || forall w' :: !callback(parse(p).value, w').ok
    ensures var r := ConsumeAll(seq(k, i => Some(p)), parse, callback, w);
            forall i :: 0 <= i < k ==> r.decisions[i] == Nack(false, true)
    decreases k
  {
    if k > 0 {
      var frames := seq(k, i => Some(p));
      assert frames[1..] == seq(k - 1, i => Some(p));
      var first := OnMessage(Some(p), parse, callback, w);
      NoRedeliveryCap(p, k - 1, parse, callback, first.world);
      var r := ConsumeAll(frames, parse, callback, w);
      assert r.decisions[0] == first.decision;
      forall i | 1 <= i < k
        ensures r.decisions[i] == Nack(false, true)
      {
        assert r.decisions[i] == ConsumeAll(frames[1..], parse, callback, first.world).decisions[i - 1];
      }
    }
  }
}

=== FILE: receive_message.dfy ===
/** The receive use case (src/application/useCases/ReceiveMessageUseCase.ts). */
module ReceiveMessage {
  import opened Results
  import opened Messages
  import opened MessageRepository

  /** The text of the error thrown for an unknown id. */
  function NotFound(id: string): (text: string) {
    "Message with id " + id + " not found"
  }

  /**
   * `execute(message)`: look the id up; throw when it is unknown, otherwise
   * mark the stored record DELIVERED. Only the id of the incoming copy is
   * read; a failure performs no update, so the caller keeps its store.
   */
  function Receive(repo: Repository, m: Message): (r: Result<Repository>)
    ensures r.Err? <==> m.id !in repo.records
    ensures r.Err? ==> r.error == NotFound(m.id)
    ensures r.Ok? ==> r.value.records.Keys == repo.records.Keys && r.value.order == repo.order
    ensures r.Ok? ==> r.value.records[m.id] == repo.records[m.id].(status := Delivered)
    ensures r.Ok? ==> forall id :: id in repo.records && id != m.id ==> r.value.records[id] == repo.records[id]
    ensures r.Ok? && Valid(repo) ==> Valid(r.value)
  {
    match FindById(repo, m.id)
    case None => Err(NotFound(m.id))
    case Some(_) => Ok(UpdateStatus(repo, m.id, Delivered))
  }

  /** Receiving the same message twice leaves the store as receiving it once. */
  lemma ReceiveIdempotent(repo: Repository, m: Message)
    requires m.id in repo.records
    ensures Receive(Receive(repo, m).value, m) == Receive(repo, m)
  {
    var once := Receive(repo, m).value;
    var twice := Receive(once, m).value;
    assert twice.records == once.records by {
      forall id | id in once.records
        ensures twice.records[id] == once.records[id]
      {
      }
    }
  }

  /** Two incoming copies with the same id have the same effect, whatever their other fields. */
  lemma ReceiveReadsOnlyId(repo: Repository, m1: Message, m2: Message)
    requires m1.id == m2.id
    ensures Receive(repo, m1) == Receive(repo, m2)
  {
  }
}

=== FILE: results.dfy ===
/** Failure-carrying wrappers shared by every module of the model. */
module Results {

  /** A value that may be absent; stands for `T | null` and `Map.get` misses. */
  datatype Option<+T> = None | Some(value: T)

  /** The outcome of an operation that can throw: a value, or the thrown error's message. */
  datatype Result<+T> = Ok(value: T) | Err(error: string)
}

=== FILE: send_message.dfy ===
/**
 * The send use case (src/application/useCases/SendMessageUseCase.ts),
 * written against the two ports it uses. Both ports act on one world `W`
 * (with the in-memory queue, publishing runs callbacks that write to the
 * store), and either may throw, which the Result of each port says.
 * `crypto.randomUUID()` and `new Date()` are the `id` and `now` parameters.
 */
module SendMessage {
  import opened Results
  import opened Messages
  import opened QueuePort

  /** The message `execute` builds: the draft's fields, a fresh id and time, status PENDING. */
  function NewMessage(d: Draft, id: string, now: int): (m: Message) {
    Message(id, d.content, d.sender, d.recipient, now, Pending)
  }

  /** A port call the use case made, in the order it made them. */
  datatype PortCall = SaveCall(message: Message) | PublishCall(queue: QueueName, message: Message)

  datatype SendReport<W> = SendReport(calls: seq<PortCall>, result: Result<W>)

  /**
   * `execute(draft)`: build the message, save it, and only once the save
   * resolved publish the same value to "messages". A failure of either
   * port is the failure of `execute`.
   */
  function Execute<W>(d: Draft, id: string, now: int, w: W,
                      save: (W, Message) -> Result<W>,
                      publish: (W, QueueName, Message) -> Result<W>): (r: SendReport<W>)
    ensures 1 <= |r.calls| <= 2 && r.calls[0].SaveCall?
    ensures var m := r.calls[0].message;
            && m.id == id && m.timestamp == now && m.status == Pending
            && m.content == d.content && m.sender == d.sender && m.recipient == d.recipient
    ensures save(w, r.calls[0].message).Err? ==> r.calls == [r.calls[0]] && r.result.Err?
    ensures save(w, r.calls[0].message).Ok? ==>
              && r.calls == [r.calls[0], PublishCall(MessagesQueue, r.calls[0].message)]
              && r.result == publish(save(w, r.calls[0].message).value, MessagesQueue, r.calls[0].message)
  {
    var m := NewMessage(d, id, now);
    match save(w, m)
    case Err(e) => SendReport([SaveCall(m)], Err(e))
    case Ok(w') => SendReport([SaveCall(m), PublishCall(MessagesQueue, m)], publish(w', MessagesQueue, m))
  }
}

=== FILE: wiring.dfy ===
/**
 * The application as src/index.ts assembles it: one in-memory queue, one
 * in-memory store, the send and receive use cases on top of them, and the
 * consumer started before anything is sent.
 */
module Wiring {
  import opened Results
  import opened Messages
  import opened QueuePort
  import MessageRepository
  import InMemoryQueue
  import SendMessage
  import MessageConsumer
  import RabbitMQQueue

  type Repository = MessageRepository.Repository
  type Handler = MessageConsumer.Handler

  datatype App = App(queue: InMemoryQueue.Queue<Handler>, repo: Repository)

  /** The store port: saving into the in-memory store never throws. */
  function SavePort(a: App, m: Message): (r: Result<App>) {
    Ok(a.(repo := MessageRepository.Save(a.repo, m)))
  }

  /** The queue port: publishing on the in-memory queue runs the consumers on the store. */
  function PublishPort(a: App, q: QueueName, m: Message): (r: Result<App>) {
    var e := InMemoryQueue.Publish(a.queue, q, m, MessageConsumer.Handle, a.repo);
    Ok(App(e.queue, e.world))
  }

  /** A fresh application with its consumer started. */
  function Boot(): (a: App)
    ensures MessageConsumer.ReceiveForwarder in InMemoryQueue.Subscribers(a.queue, MessagesQueue)
    ensures MessageRepository.Valid(a.repo) && a.repo.records == map[]
  {
    var e := MessageConsumer.Start(InMemoryQueue.Empty(), MessageRepository.Empty());
    App(e.queue, e.world)
  }

  /** `sendMessageUseCase.execute(draft)` on the in-memory ports. */
  function Send(a: App, d: Draft, id: string, now: int): (r: Result<App>)
    ensures r.Ok?
  {
    SendMessage.Execute(d, id, now, a, SavePort, PublishPort).result
  }

  /**
   * End to end: once the consumer is subscribed, sending a draft leaves the
   * new id stored as the built message with status DELIVERED, all its other
   * fields as built, and every other record as it was.
   */
  lemma EndToEnd(a: App, d: Draft, id: string, now: int)
    requires MessageConsumer.ReceiveForwarder in InMemoryQueue.Subscribers(a.queue, MessagesQueue)
    ensures MessageRepository.FindById(Send(a, d, id, now).value.repo, id)
            == Some(SendMessage.NewMessage(d, id, now).(status := Delivered))
    ensures forall other :: other != id ==>
              MessageRepository.FindById(Send(a, d, id, now).value.repo, other)
              == MessageRepository.FindById(a.repo, other)
  {
    var m := SendMessage.NewMessage(d, id, now);
    var saved := MessageRepository.Save(a.repo, m);
    var hs := InMemoryQueue.Subscribers(a.queue, MessagesQueue);
    var calls := InMemoryQueue.FanOut(MessagesQueue, hs, m);
    MessageConsumer.DispatchReceive(calls, saved);
    var ms := InMemoryQueue.MessagesOf(calls);
    assert Ids(ms) == {id} by {
      assert |ms| > 0 && ms[0] == m;
      forall x | x in Ids(ms) ensures x == id {
        var i :| 0 <= i < |ms| && ms[i].id == x;
      }
    }
    assert Send(a, d, id, now).value.repo == InMemoryQueue.Dispatch(MessageConsumer.Handle, calls, saved).world;
  }

  /**
   * With a fresh id, sending adds exactly one record, at the end of the
   * listing, already DELIVERED; the records listed before keep their places.
   */
  lemma SendFreshAppends(a: App, d: Draft, id: string, now: int)
    requires MessageConsumer.ReceiveForwarder in InMemoryQueue.Subscribers(a.queue, MessagesQueue)
    requires MessageRepository.Valid(a.repo)
    requires id !in a.repo.records
    ensures MessageRepository.Valid(Send(a, d, id, now).value.repo)
    ensures MessageRepository.FindAll(Send(a, d, id, now).value.repo)
            == MessageRepository.FindAll(a.repo) + [SendMessage.NewMessage(d, id, now).(status := Delivered)]
  {
    var m := SendMessage.NewMessage(d, id, now);
    var saved := MessageRepository.Save(a.repo, m);
    var hs := InMemoryQueue.Subscribers(a.queue, MessagesQueue);
    var calls := InMemoryQueue.FanOut(MessagesQueue, hs, m);
    MessageConsumer.DispatchReceive(calls, saved);
    EndToEnd(a, d, id, now);
    var after := Send(a, d, id, now).value.repo;
    assert after == InMemoryQueue.Dispatch(MessageConsumer.Handle, calls, saved).world;
    assert after.order == a.repo.order + [id];
    assert after.records.Keys == a.repo.records.Keys + {id};
    forall k | k in a.repo.records
      ensures k in after.records && after.records[k] == a.repo.records[k]
    {
      assert MessageRepository.FindById(after, k) == MessageRepository.FindById(a.repo, k);
    }
    assert after.records[id] == m.(status := Delivered);
    assert MessageRepository.Valid(after);
    MessageRepository.FindAllAppend(a.repo, after, m.(status := Delivered));
  }

  /** The consumer's callback as the broker adapter sees it. */
  function Forward(m: Message, repo: Repository): (o: Outcome<Repository>) {
    MessageConsumer.Handle(MessageConsumer.ReceiveForwarder, m, repo)
  }

  /**
   * The consumer on the broker adapter: a frame is acknowledged exactly
   * when it parses to a message whose id is stored, which then reads
   * DELIVERED; an unparsable frame or an unknown id is rejected with
   * requeue and leaves the store as it was.
   */
  lemma ConsumerOnBroker(p: RabbitMQQueue.Payload, parse: RabbitMQQueue.Payload -> Option<Message>, repo: Repository)
    ensures var r := RabbitMQQueue.OnMessage(Some(p), parse, Forward, repo);
            && (r.decision == RabbitMQQueue.Ack <==> parse(p).Some? && parse(p).value.id in repo.records)
            && (r.decision != RabbitMQQueue.Ack ==> r.decision == RabbitMQQueue.Nack(false, true) && r.world == repo)
            && (r.decision == RabbitMQQueue.Ack ==>
                  MessageRepository.FindById(r.world, parse(p).value.id)
                  == Some(repo.records[parse(p).value.id].(status := Delivered)))
  {
  }
}
